=== FILE: README.md ===
# Friend-request lifecycle of the odin-book API, in Dafny

This project models the friend relationships of a social-network REST
backend. The model covers the friend controller: sending, accepting and
rejecting friend requests, unfriending, and the friends and pending-request
listings. It proves that accept, reject, unfriend and a corrected send
keep the store consistent. The send handler as written does not: it lets
a user send a request to themself (see Findings).

The store has two parts:

- **Users.** A map from user id to that user's `friends` array. The key set
  is the set of existing users.
- **Friend requests.** A sequence of `FriendRequest(sender, receiver, status)`
  records in insertion order. The status is one of
  `Pending`, `Accepted`, `Rejected`.

Each mutating handler (send, accept, reject, unfriend) is a pure function
`(store, caller, target) -> Step(outcome, store')`. The two listings are
`(store, caller) -> Option<list>`, with `None` for "not found". The caller
is the authenticated user. The target is the `friendId` path parameter.
Each outcome stands for one response of the controller: `Ok`,
`UserNotFound`, `SelfRequest`, `AlreadyFriends`, `AlreadySentOrAccepted`,
`RequestNotFound` and `NotFriends`.

The document-store primitives the controller uses are modelled once, in the
`Collection` module:

- `findOne` is `FindFirst`, the first match in insertion order.
- `find` is `FindAll`.
- `deleteOne` is `FindFirst` followed by `RemoveAt`.
- A Mongoose array's `push` is an append.
- `pull` is `Pull`, which removes every occurrence.

The consistency that accept, reject, unfriend and the corrected send keep is
`FriendsInvariant.Valid`:

- every record links two distinct existing users;
- at most one record exists per unordered pair, whatever its status;
- friends arrays name existing users, each at most once;
- B is in A's friends array exactly when an accepted record links A and B.
  It follows that friendship is symmetric (`FriendshipSymmetric`).

Modules: `FriendTypes` (types.dfy), `Collection` (collection.dfy), `Friends`
(friends.dfy: the handlers), `FriendsInvariant` (invariant.dfy) and
`FriendsProperties` (properties.dfy).

Where the code and its evident intent differ, the model follows the code:

- The send handler's message "You cannot send a friend request to
  yourself" (controllers/friendsController.js:65) shows that a request to
  oneself should be refused, but the guard never fires; see Findings.
- A re-send after a rejection reopens the original record and keeps its
  sender and receiver (controllers/friendsController.js:88-96). When the
  original receiver is the one who re-sends, the record still names the
  other user as sender. The re-sender can then accept their own request,
  and the user they asked cannot (`ResenderAcceptsOwnResend`). The comment
  at line 89 says the original record is reused on purpose, so this is not
  claimed as a finding.

Other facts about the code that the model keeps:

- The pending listing tests an array for truthiness. An array is always
  truthy, so its "No pending friend requests found" branch is unreachable.
  An empty list is a success, and `PendingList` returns it as one.
- Unfriend has no "already friends" guard. It looks only for an accepted
  record.
- Accept loads both users separately and pushes onto each. When the two ids
  are the same user, both pushes land on that user's array.

## Model

| member | source | states |
|---|---|---|
| Collection.FindFirst | controllers/friendsController.js:80-86 | `findOne` finds the first record matching the query, and finds nothing exactly when no record matches |
| Collection.FindAll | controllers/friendsController.js:34-37 | `find` returns the matching records, each as many times as the collection holds it, and no others |
| Collection.Pull | controllers/friendsController.js:239-240 | `pull` removes every occurrence of the value and keeps every other element as many times as it occurred; it keeps an array free of duplicates, and leaves an array without the value unchanged |
| Collection.FindAllConcat | controllers/friendsController.js:34-37 | `find` keeps collection order: over a collection made of two stretches, it returns the matches of the first stretch followed by those of the second |
| Collection.PullAppend | controllers/friendsController.js:239-240 | `pull` keeps array order: an element at the end of the array stays at the end of the result unless it is the value pulled |
| Collection.RemoveAt | controllers/friendsController.js:229-235 | `deleteOne` removes exactly the document at the matched position: the collection shrinks by one, earlier documents stay in place and later ones move up by one |
| Collection.PullAppended | controllers/friendsController.js:239-240 | pulling a value that was just pushed onto an array lacking it gives back the original array |
| Friends.FriendsList | controllers/friendsController.js:6-21 | an unknown caller gets "not found"; otherwise every listed user is one the friends guard sees as a friend |
| Friends.PendingList | controllers/friendsController.js:24-49 | an unknown caller gets "not found"; otherwise the result holds exactly the pending records the caller sent or received, each as often as it is stored |
| Friends.SendAsWritten | controllers/friendsController.js:52-119 | send as the code is written: a failure changes nothing; friends arrays are never touched; "user not found" exactly when a user is missing; success leaves a pending record between the two |
| Friends.Send | controllers/friendsController.js:52-119 | send with the self-request guard working: the same, plus "yourself" exactly for an existing user targeting themself, and success only for distinct users who are not friends |
| Friends.Accept | controllers/friendsController.js:122-169 | "user not found" exactly when either user is missing; "already friends" exactly when both exist and either array names the other; "request does not exist" exactly when, past those, no pending request runs from target to caller; a failure changes nothing; after success each user is in the other's friends array |
| Friends.Reject | controllers/friendsController.js:172-215 | the same three failure outcomes under the same conditions as accept; a failure changes nothing; friends arrays are never touched; success turns a pending request from target to caller into a rejected one |
| Friends.Unfriend | controllers/friendsController.js:218-255 | "user not found" exactly when either user is missing; "not friends" exactly when both exist and no accepted record links them in either direction; a failure changes nothing; success needs an accepted record in either direction, removes exactly one record, and leaves neither user in the other's array |
| FriendsInvariant.FriendshipSymmetric | controllers/friendsController.js:149-157 | in a consistent store, B in A's friends array implies A in B's, and no one is their own friend |
| FriendsInvariant.SendPreservesValid | controllers/friendsController.js:79-117 | send keeps the store consistent, including at most one record per pair |
| FriendsInvariant.AcceptPreservesValid | controllers/friendsController.js:149-157 | accept keeps the store consistent |
| FriendsInvariant.RejectPreservesValid | controllers/friendsController.js:199-203 | reject keeps the store consistent |
| FriendsInvariant.UnfriendPreservesValid | controllers/friendsController.js:229-243 | unfriend keeps the store consistent |
| FriendsProperties.SendCreatesRequestIff | controllers/friendsController.js:103-117 | send appends exactly (caller, target, pending) and leaves the friends arrays alone, if and only if both users exist, differ, are not friends and no record of any status links them |
| FriendsProperties.SendDuplicateFails | controllers/friendsController.js:97-102 | in a consistent store, with a pending record between the pair, in either direction, send answers "already sent or accepted" and changes nothing |
| FriendsProperties.SendToFriendFails | controllers/friendsController.js:69-77 | in a consistent store, with an accepted record between the pair, send answers "already friends" and changes nothing |
| FriendsProperties.SendReopensRejected | controllers/friendsController.js:88-96 | in a consistent store, with a rejected record between the pair, send succeeds by setting that same record to pending; sender and receiver are kept and no record is added |
| FriendsProperties.AlreadyFriendsGuard | controllers/friendsController.js:69-77 | when either array names the other user, accept and reject answer "already friends" and change nothing, and so does send between distinct users |
| FriendsProperties.AcceptSucceedsIff | controllers/friendsController.js:143-168 | in a consistent store, accept succeeds exactly when both users exist and a pending request runs from the target to the caller |
| FriendsProperties.RejectSucceedsIff | controllers/friendsController.js:193-214 | in a consistent store, reject succeeds exactly when both users exist and a pending request runs from the target to the caller |
| FriendsProperties.SenderCannotAnswer | controllers/friendsController.js:143-147 | in a consistent store, the user in a pending record's stored `sender` field who tries to accept or reject it gets "request does not exist", and nothing changes |
| FriendsProperties.ResenderAcceptsOwnResend | controllers/friendsController.js:88-96 | in a consistent store, after the receiver of a rejected request re-sends, the reopened record keeps its stored sender, so the re-sender's accept succeeds and the other user's accept answers "request does not exist" |
| FriendsProperties.AcceptEffect | controllers/friendsController.js:149-162 | in a consistent store, the receiver's accept turns exactly that record accepted and pushes each user onto the other's friends array; nothing else changes |
| FriendsProperties.RejectEffect | controllers/friendsController.js:199-208 | in a consistent store, the receiver's reject turns exactly that record rejected; the friends arrays and all other records stay as they were |
| FriendsProperties.UnfriendIff | controllers/friendsController.js:229-254 | in a consistent store, unfriend succeeds exactly when the users are friends, and then leaves no record between them; otherwise it answers "not friends" and changes nothing |
| FriendsProperties.UnfriendEffect | controllers/friendsController.js:229-243 | in a consistent store, unfriending over an accepted record deletes exactly that record and pulls each user from the other's array; nothing else changes |
| FriendsProperties.FriendsListMatchesAccepted | controllers/friendsController.js:8-20 | in a consistent store, the friends list holds exactly the users linked to the caller by an accepted record |
| FriendsProperties.LifecycleSend | test/friendsRoute.test.js:82-174 | in a consistent store, a first send between two existing, distinct users who are not friends and have no record between them succeeds and adds exactly one entry, the new request, at the end of both users' pending lists; a second send from either side fails with "already sent or accepted" |
| FriendsProperties.LifecycleRoundTrip | test/friendsRoute.test.js:194-254 | in a consistent store, for two existing, distinct users who are not friends and have no record between them: send, then the receiver's accept, makes the two friends; the receiver's unfriend then returns the store exactly to where it started |
| FriendsProperties.UndoPushes | controllers/friendsController.js:149-157 | for distinct users absent from each other's arrays, pulling each user from the other's array undoes the two pushes of an accept |
| FriendsProperties.SendAgreesWithCode | controllers/friendsController.js:62-67 | apart from an existing user targeting themself, the corrected send is the send as written |
| FriendsProperties.SelfRequestSlipsThrough | controllers/friendsController.js:62-67 | as written, an existing user who sends a request to themself gets success and a self-to-self pending record, which breaks the store's consistency |
| FriendsProperties.SelfAcceptPushesTwice | controllers/friendsController.js:149-157 | in a consistent store, as written, an existing user can accept their own self-request, and their friends array gains their own id twice |

## Findings

| source | as written | input that shows it | evidently intended | confidence | as-written member | corrected member |
|---|---|---|---|---|---|---|
| controllers/friendsController.js:62 | `friend === user` compares two user documents loaded by separate queries; they are distinct objects, so the guard never holds | an existing user sends a friend request to their own id; accepting it then pushes their own id onto their array twice | refuse with 400 "You cannot send a friend request to yourself" and change nothing | high; not executed | FriendsProperties.SelfRequestSlipsThrough (over Friends.SendAsWritten), FriendsProperties.SelfAcceptPushesTwice | Friends.Send, with FriendsInvariant.SendPreservesValid |

## Left out

- Routing and authentication: the route table, Passport/JWT strategies and password hashing. The caller's id is a parameter of each handler.
- Population and projection: the `populate`/`select` calls only choose which user fields are returned. The model returns ids and records.
- The `createdAt` timestamp of a new request. It is a clock reading, and no rule depends on it.
- `models/friendRequest.js` is not part of this model. The default status of pending is taken from the comment at controllers/friendsController.js:104.
- Persistence failures: a failed save becomes a 500 through the async handler wrapper. The model assumes every save succeeds.
- Atomicity: accept and unfriend save several documents one after another. Each handler is modelled as one atomic step, and interleavings of concurrent requests are not modelled.
- Malformed ids: a `friendId` that is not a valid document id makes `User.findById` throw a cast error, which the async handler wrapper turns into a 500. Ids are natural numbers here, so the model answers "user not found" for every id that names no user.
- Lookup order: MongoDB's `find`, `findOne` and `deleteOne` without a sort promise no order. The model takes insertion order. Only the order of the pending list depends on this choice (`FindAllConcat`, and "at the end" in `LifecycleSend`). With at most one record per pair, every other lookup has at most one match.
- Identifier comparison: Mongoose's `includes` and query matching are modelled as equality of ids.
- The post and comment controllers are not modelled. Their handlers are stubs with no logic. The user controller is not modelled either: it wraps validation, hashing and token libraries.

=== FILE: collection.dfy ===
/**
 The document-store primitives the controller relies on, over the
 friend-request collection taken in insertion order: `findOne` returns the
 first matching document, `find` all of them in order, and `deleteOne`
 removes the first match. Friends arrays use `push` (append) and `pull`
 (remove every occurrence).
 */
module Collection {
  import opened FriendTypes

  /** The three query shapes the controller issues. */
  datatype Query =
      /** `$or` over both directions of the pair, with `status` in a set. */
    | Between(a: UserId, b: UserId, statuses: set<Status>)
      /** One direction only, with one status. */
    | Directed(sender: UserId, receiver: UserId, status: Status)
      /** `$or` over `sender` and `receiver` being the user, with one status. */
    | Party(user: UserId, status: Status)

  predicate Matches(r: FriendRequest, q: Query) {
    match q
    case Between(a, b, statuses) => Involves(r, a, b) && r.status in statuses
    case Directed(x, y, st) => r.sender == x && r.receiver == y && r.status == st
    case Party(u, st) => (r.sender == u || r.receiver == u) && r.status == st
  }

  /** `findOne`: the position of the first matching document, if any. */
  function FindFirst(rs: seq<FriendRequest>, q: Query): (k: Option<nat>)
    ensures k.Some? ==> k.value < |rs| && Matches(rs[k.value], q)
    ensures k.Some? ==> forall j :: 0 <= j < k.value ==> !Matches(rs[j], q)
    ensures k.None? <==> forall j :: 0 <= j < |rs| ==> !Matches(rs[j], q)
  {
    if |rs| == 0 then None
    else if Matches(rs[0], q) then Some(0)
    else match FindFirst(rs[1..], q)
      case None => None
      case Some(k) => Some(k + 1)
  }

  /** `find`: every matching document, in collection order. */
  function FindAll(rs: seq<FriendRequest>, q: Query): (r: seq<FriendRequest>)
    ensures forall x :: x in r <==> x in rs && Matches(x, q)
    ensures forall x :: multiset(r)[x] == if Matches(x, q) then multiset(rs)[x] else 0
    ensures |r| <= |rs|
  {
    if |rs| == 0 then []
    else
      var last := rs[|rs| - 1];
      assert rs == rs[..|rs| - 1] + [last];
      FindAll(rs[..|rs| - 1], q) + (if Matches(last, q) then [last] else [])
  }

  /** A document added at the end of the collection shows at the end of `find`, if it matches. */
  lemma FindAllAppend(rs: seq<FriendRequest>, x: FriendRequest, q: Query)
    ensures FindAll(rs + [x], q) == FindAll(rs, q) + (if Matches(x, q) then [x] else [])
  {
    assert (rs + [x])[..|rs|] == rs;
  }

  /** `find` keeps collection order: over two stretches of the collection it returns the matches of the first, then those of the second. */
  lemma {:induction false} FindAllConcat(a: seq<FriendRequest>, b: seq<FriendRequest>, q: Query)
    ensures FindAll(a + b, q) == FindAll(a, q) + FindAll(b, q)
    decreases |b|
  {
    if |b| == 0 {
      assert a + b == a;
    } else {
      var init, last := b[..|b| - 1], b[|b| - 1];
      var tail := if Matches(last, q) then [last] else [];
      assert b == init + [last];
      assert a + b == (a + init) + [last];
      calc {
        FindAll(a + b, q);
        { FindAllAppend(a + init, last, q); }
        FindAll(a + init, q) + tail;
        { FindAllConcat(a, init, q); }
        (FindAll(a, q) + FindAll(init, q)) + tail;
        { ConcatAssoc(FindAll(a, q), FindAll(init, q), tail); }
        FindAll(a, q) + (FindAll(init, q) + tail);
        { FindAllAppend(init, last, q); }
        FindAll(a, q) + FindAll(b, q);
      }
    }
  }

  lemma ConcatAssoc<T>(x: seq<T>, y: seq<T>, z: seq<T>)
    ensures (x + y) + z == x + (y + z)
  {
  }

  /** The collection with the document at position `k` deleted. */
  function RemoveAt<T>(xs: seq<T>, k: nat): (r: seq<T>)
    requires k < |xs|
    ensures |r| == |xs| - 1
    ensures forall i :: 0 <= i < k ==> r[i] == xs[i]
    ensures forall i :: k <= i < |r| ==> r[i] == xs[i + 1]
  {
    xs[..k] + xs[k + 1..]
  }

  /** No identifier occurs twice. */
  predicate NoDup<T(==)>(xs: seq<T>) {
    forall i, j :: 0 <= i < j < |xs| ==> xs[i] != xs[j]
  }

  lemma NoDupCons<T>(x: T, xs: seq<T>)
    requires x !in xs && NoDup(xs)
    ensures NoDup([x] + xs)
  {
    forall i, j | 0 <= i < j < |[x] + xs|
      ensures ([x] + xs)[i] != ([x] + xs)[j]
    {
      if i == 0 {
        assert ([x] + xs)[j] == xs[j - 1];
      }
    }
  }

  lemma NoDupSnoc<T>(xs: seq<T>, x: T)
    requires x !in xs && NoDup(xs)
    ensures NoDup(xs + [x])
  {
  }

  /** `pull`: the array with every occurrence of `v` removed, order kept. */
  function Pull(xs: seq<UserId>, v: UserId): (r: seq<UserId>)
    ensures forall x :: x in r <==> x in xs && x != v
    ensures NoDup(xs) ==> NoDup(r)
    ensures v !in xs ==> r == xs
    ensures forall x :: multiset(r)[x] == if x == v then 0 else multiset(xs)[x]
  {
    if |xs| == 0 then []
    else
      var rest := Pull(xs[1..], v);
      assert xs == [xs[0]] + xs[1..];
      if xs[0] == v then rest
      else if NoDup(xs) then
        assert xs[0] !in xs[1..];
        NoDupCons(xs[0], rest);
        [xs[0]] + rest
      else [xs[0]] + rest
  }

  /** `pull` keeps array order: a value pushed at the end stays at the end unless it is the one pulled. */
  lemma {:induction false} PullAppend(xs: seq<UserId>, w: UserId, v: UserId)
    ensures Pull(xs + [w], v) == Pull(xs, v) + (if w == v then [] else [w])
  {
    if |xs| > 0 {
      assert (xs + [w])[1..] == xs[1..] + [w];
      PullAppend(xs[1..], w, v);
    } else {
      assert (xs + [w])[1..] == [];
    }
  }

  /** Pulling a value just pushed onto an array that lacked it restores the array. */
  lemma {:induction false} PullAppended(xs: seq<UserId>, v: UserId)
    requires v !in xs
    ensures Pull(xs + [v], v) == xs
  {
    if |xs| > 0 {
      assert (xs + [v])[1..] == xs[1..] + [v];
      PullAppended(xs[1..], v);
    } else {
      assert (xs + [v])[1..] == [];
    }
  }
}

=== FILE: friends.dfy ===
/**
 The friend handlers of the controller, each a pure transition from the
 store, the authenticated caller and the target user (the `friendId` path
 parameter) to an outcome and the store afterwards. Each handler is one
 atomic step.
 */
module Friends {
  import opened FriendTypes
  import opened Collection

  /** The status filter of the send handler's lookup: every status. */
  const AnyStatus: set<Status> := {Pending, Accepted, Rejected}

  /** The "already friends" guard: either friends array names the other user. */
  predicate ListedAsFriends(s: Store, a: UserId, b: UserId) {
    (a in s.friends && b in s.friends[a]) || (b in s.friends && a in s.friends[b])
  }

  /** The friends-list handler: the caller's friends array, or none for an unknown caller. */
  function FriendsList(s: Store, u: UserId): (r: Option<seq<UserId>>)
    ensures r.None? <==> u !in s.friends
    ensures r.Some? ==> forall v :: v in r.value ==> ListedAsFriends(s, u, v)
  {
    if u in s.friends then Some(s.friends[u]) else None
  }

  /**
   The pending-list handler: every pending request the caller sent or
   received, or none for an unknown caller. An empty list is still a
   success, because the handler tests the array for truthiness.
   */
  function PendingList(s: Store, u: UserId): (r: Option<seq<FriendRequest>>)
    ensures r.None? <==> u !in s.friends
    ensures r.Some? ==> forall x :: x in r.value <==>
      x in s.requests && x.status == Pending && (x.sender == u || x.receiver == u)
    ensures r.Some? ==> forall x :: multiset(r.value)[x] == if x.status == Pending && (x.sender == u || x.receiver == u)
      then multiset(s.requests)[x] else 0
  {
    if u in s.friends then Some(FindAll(s.requests, Party(u, Pending))) else None
  }

  /**
   The send handler as the code is written. Its self-request guard
   compares two separately loaded user documents by identity, which never
   holds, so it is not modelled: a request to oneself gets through.
   */
  function SendAsWritten(s: Store, caller: UserId, target: UserId): (r: Step)
    ensures r.outcome != Ok ==> r.store == s
    ensures r.store.friends == s.friends
    ensures r.outcome == UserNotFound <==> caller !in s.friends || target !in s.friends
    ensures r.outcome == Ok ==>
      FriendRequest(caller, target, Pending) in r.store.requests ||
      FriendRequest(target, caller, Pending) in r.store.requests
  {
    if caller !in s.friends || target !in s.friends then Step(UserNotFound, s)
    else if ListedAsFriends(s, caller, target) then Step(AlreadyFriends, s)
    else match FindFirst(s.requests, Between(caller, target, AnyStatus))
      case Some(k) =>
        if s.requests[k].status == Rejected then
          var requests := s.requests[k := s.requests[k].(status := Pending)];
          assert requests[k] in requests;
          Step(Ok, s.(requests := requests))
        else
          Step(AlreadySentOrAccepted, s)
      case None =>
        Step(Ok, s.(requests := s.requests + [FriendRequest(caller, target, Pending)]))
  }

  /**
   The send handler with the self-request guard working as its message
   intends: after both users are found, a request to oneself is refused.
   */
  function Send(s: Store, caller: UserId, target: UserId): (r: Step)
    ensures r.outcome != Ok ==> r.store == s
    ensures r.store.friends == s.friends
    ensures r.outcome == UserNotFound <==> caller !in s.friends || target !in s.friends
    ensures r.outcome == SelfRequest <==> caller in s.friends && caller == target
    ensures r.outcome == Ok ==> caller != target && !ListedAsFriends(s, caller, target)
    ensures r.outcome == Ok ==>
      FriendRequest(caller, target, Pending) in r.store.requests ||
      FriendRequest(target, caller, Pending) in r.store.requests
  {
    if caller in s.friends && target in s.friends && caller == target then Step(SelfRequest, s)
    else SendAsWritten(s, caller, target)
  }

  /**
   The accept handler: only a pending request from the target to the
   caller can be accepted; each user is then pushed onto the other's
   friends array. The two pushes are applied one after the other, as the
   two documents are saved one after the other: when both ids are the
   same user, that user's array gains the id twice.
   */
  function Accept(s: Store, caller: UserId, target: UserId): (r: Step)
    ensures r.outcome in {Ok, UserNotFound, AlreadyFriends, RequestNotFound}
    ensures r.outcome == UserNotFound <==> caller !in s.friends || target !in s.friends
    ensures r.outcome == AlreadyFriends <==>
      caller in s.friends && target in s.friends && ListedAsFriends(s, caller, target)
    ensures r.outcome == RequestNotFound <==>
      && caller in s.friends && target in s.friends && !ListedAsFriends(s, caller, target)
      && FriendRequest(target, caller, Pending) !in s.requests
    ensures r.outcome != Ok ==> r.store == s
    ensures r.store.friends.Keys == s.friends.Keys
    ensures |r.store.requests| == |s.requests|
    ensures r.outcome == Ok ==>
      caller in r.store.friends && target in r.store.friends[caller] &&
      target in r.store.friends && caller in r.store.friends[target]
    ensures r.outcome == Ok ==> FriendRequest(target, caller, Pending) in s.requests
  {
    if caller !in s.friends || target !in s.friends then Step(UserNotFound, s)
    else if ListedAsFriends(s, caller, target) then Step(AlreadyFriends, s)
    else match FindFirst(s.requests, Directed(target, caller, Pending))
      case Some(k) =>
        var friends := s.friends[caller := s.friends[caller] + [target]];
        var friends' := friends[target := friends[target] + [caller]];
        Step(Ok, Store(friends', s.requests[k := s.requests[k].(status := Accepted)]))
      case None => Step(RequestNotFound, s)
  }

  /**
   The reject handler: only a pending request from the target to the
   caller can be rejected; the friends arrays are left alone.
   */
  function Reject(s: Store, caller: UserId, target: UserId): (r: Step)
    ensures r.outcome in {Ok, UserNotFound, AlreadyFriends, RequestNotFound}
    ensures r.outcome == UserNotFound <==> caller !in s.friends || target !in s.friends
    ensures r.outcome == AlreadyFriends <==>
      caller in s.friends && target in s.friends && ListedAsFriends(s, caller, target)
    ensures r.outcome == RequestNotFound <==>
      && caller in s.friends && target in s.friends && !ListedAsFriends(s, caller, target)
      && FriendRequest(target, caller, Pending) !in s.requests
    ensures r.outcome != Ok ==> r.store == s
    ensures r.store.friends == s.friends
    ensures |r.store.requests| == |s.requests|
    ensures r.outcome == Ok ==>
      FriendRequest(target, caller, Pending) in s.requests &&
      FriendRequest(target, caller, Rejected) in r.store.requests
  {
    if caller !in s.friends || target !in s.friends then Step(UserNotFound, s)
    else if ListedAsFriends(s, caller, target) then Step(AlreadyFriends, s)
    else match FindFirst(s.requests, Directed(target, caller, Pending))
      case Some(k) =>
        var requests := s.requests[k := s.requests[k].(status := Rejected)];
        assert requests[k] in requests;
        Step(Ok, s.(requests := requests))
      case None => Step(RequestNotFound, s)
  }

  /**
   The unfriend handler: deletes the first accepted request between the
   two users, in either direction, and pulls each user from the other's
   friends array. There is no "already friends" guard here.
   */
  function Unfriend(s: Store, caller: UserId, target: UserId): (r: Step)
    ensures r.outcome in {Ok, UserNotFound, NotFriends}
    ensures r.outcome == UserNotFound <==> caller !in s.friends || target !in s.friends
    ensures r.outcome == NotFriends <==>
      && caller in s.friends && target in s.friends
      && FriendRequest(caller, target, Accepted) !in s.requests
      && FriendRequest(target, caller, Accepted) !in s.requests
    ensures r.outcome != Ok ==> r.store == s
    ensures r.store.friends.Keys == s.friends.Keys
    ensures r.outcome == Ok ==> |r.store.requests| == |s.requests| - 1
    ensures r.outcome == Ok ==>
      caller in r.store.friends && target !in r.store.friends[caller] &&
      target in r.store.friends && caller !in r.store.friends[target]
    ensures r.outcome == Ok ==>
      FriendRequest(caller, target, Accepted) in s.requests ||
      FriendRequest(target, caller, Accepted) in s.requests
  {
    if caller !in s.friends || target !in s.friends then Step(UserNotFound, s)
    else match FindFirst(s.requests, Between(caller, target, {Accepted}))
      case Some(k) =>
        var friends := s.friends[caller := Pull(s.friends[caller], target)];
        var friends' := friends[target := Pull(friends[target], caller)];
        Step(Ok, Store(friends', RemoveAt(s.requests, k)))
      case None => Step(NotFriends, s)
  }
}

=== FILE: invariant.dfy ===
/**
 The consistency the friend handlers keep between the friends arrays and
 the friend-request collection, and one preservation lemma per handler.
 */
module FriendsInvariant {
  import opened FriendTypes
  import opened Collection
  import opened Friends

  /** Every record links two distinct existing users. */
  ghost predicate RecordsWellFormed(s: Store) {
    forall i :: 0 <= i < |s.requests| ==>
      && s.requests[i].sender in s.friends
      && s.requests[i].receiver in s.friends
      && s.requests[i].sender != s.requests[i].receiver
  }

  /** At most one record per unordered pair of users, whatever its status. */
  ghost predicate OneRecordPerPair(rs: seq<FriendRequest>) {
    forall i, j :: 0 <= i < |rs| && 0 <= j < |rs| && i != j ==>
      !Involves(rs[j], rs[i].sender, rs[i].receiver)
  }

  /** Some accepted record links `a` and `b`. */
  ghost predicate Befriended(rs: seq<FriendRequest>, a: UserId, b: UserId) {
    exists i :: 0 <= i < |rs| && rs[i].status == Accepted && Involves(rs[i], a, b)
  }

  /** Friends arrays name existing users, each at most once. */
  ghost predicate FriendListsWellFormed(s: Store) {
    forall u :: u in s.friends ==>
      NoDup(s.friends[u]) && forall v :: v in s.friends[u] ==> v in s.friends
  }

  /** A user lists another as a friend exactly when an accepted record links them. */
  ghost predicate FriendsMatchAccepted(s: Store) {
    forall a, b :: a in s.friends && b in s.friends ==>
      (b in s.friends[a] <==> Befriended(s.requests, a, b))
  }

  ghost predicate Valid(s: Store) {
    && RecordsWellFormed(s)
    && OneRecordPerPair(s.requests)
    && FriendListsWellFormed(s)
    && FriendsMatchAccepted(s)
  }

  /** A store of users with empty friends arrays and no requests is consistent. */
  lemma EmptyStoreValid(users: set<UserId>)
    ensures Valid(Store(map u | u in users :: [], []))
  {
  }

  /** Friendship in a consistent store is symmetric and never reflexive. */
  lemma FriendshipSymmetric(s: Store, a: UserId, b: UserId)
    requires Valid(s)
    requires a in s.friends && b in s.friends[a]
    ensures b in s.friends && a in s.friends[b] && a != b
  {
    var i :| 0 <= i < |s.requests| && s.requests[i].status == Accepted && Involves(s.requests[i], a, b);
    assert Involves(s.requests[i], b, a);
  }

  // ---- how the collection operations affect Befriended and OneRecordPerPair ----

  /** Overwriting one record changes nothing for a pair it witnesses for neither before nor after. */
  lemma BefriendedUpdate(rs: seq<FriendRequest>, k: nat, nr: FriendRequest, a: UserId, b: UserId)
    requires k < |rs|
    requires (rs[k].status == Accepted && Involves(rs[k], a, b)) <==>
             (nr.status == Accepted && Involves(nr, a, b))
    ensures Befriended(rs[k := nr], a, b) <==> Befriended(rs, a, b)
  {
    var rs' := rs[k := nr];
    if Befriended(rs, a, b) {
      var i :| 0 <= i < |rs| && rs[i].status == Accepted && Involves(rs[i], a, b);
      assert rs'[i].status == Accepted && Involves(rs'[i], a, b);
    }
    if Befriended(rs', a, b) {
      var i :| 0 <= i < |rs'| && rs'[i].status == Accepted && Involves(rs'[i], a, b);
      assert rs[i].status == Accepted && Involves(rs[i], a, b);
    }
  }

  /** Appending a record that is not accepted changes no friendship. */
  lemma BefriendedAppend(rs: seq<FriendRequest>, nr: FriendRequest, a: UserId, b: UserId)
    requires nr.status != Accepted
    ensures Befriended(rs + [nr], a, b) <==> Befriended(rs, a, b)
  {
    var rs' := rs + [nr];
    if Befriended(rs, a, b) {
      var i :| 0 <= i < |rs| && rs[i].status == Accepted && Involves(rs[i], a, b);
      assert rs'[i] == rs[i];
    }
  }

  /** Deleting a record that does not witness the pair changes nothing for it. */
  lemma BefriendedRemove(rs: seq<FriendRequest>, k: nat, a: UserId, b: UserId)
    requires k < |rs|
    requires !(rs[k].status == Accepted && Involves(rs[k], a, b))
    ensures Befriended(RemoveAt(rs, k), a, b) <==> Befriended(rs, a, b)
  {
    var rs' := RemoveAt(rs, k);
    if Befriended(rs, a, b) {
      var i :| 0 <= i < |rs| && rs[i].status == Accepted && Involves(rs[i], a, b);
      if i < k {
        assert rs'[i] == rs[i];
      } else {
        assert rs'[i - 1] == rs[i];
      }
    }
    if Befriended(rs', a, b) {
      var i :| 0 <= i < |rs'| && rs'[i].status == Accepted && Involves(rs'[i], a, b);
      if i < k {
        assert rs[i] == rs'[i];
      } else {
        assert rs[i + 1] == rs'[i];
      }
    }
  }

  /** Deleting the one record of a pair leaves the pair without a record. */
  lemma NoRecordAfterRemove(rs: seq<FriendRequest>, k: nat, a: UserId, b: UserId)
    requires k < |rs| && OneRecordPerPair(rs) && Involves(rs[k], a, b)
    ensures forall i :: 0 <= i < |RemoveAt(rs, k)| ==> !Involves(RemoveAt(rs, k)[i], a, b)
  {
    var rs' := RemoveAt(rs, k);
    forall i | 0 <= i < |rs'|
      ensures !Involves(rs'[i], a, b)
    {
      if i < k {
        assert rs'[i] == rs[i];
      } else {
        assert rs'[i] == rs[i + 1];
      }
    }
  }

  lemma OneRecordPerPairRemove(rs: seq<FriendRequest>, k: nat)
    requires k < |rs| && OneRecordPerPair(rs)
    ensures OneRecordPerPair(RemoveAt(rs, k))
  {
    var rs' := RemoveAt(rs, k);
    forall i, j | 0 <= i < |rs'| && 0 <= j < |rs'| && i != j
      ensures !Involves(rs'[j], rs'[i].sender, rs'[i].receiver)
    {
      var i0 := if i < k then i else i + 1;
      var j0 := if j < k then j else j + 1;
      assert rs'[i] == rs[i0] && rs'[j] == rs[j0];
    }
  }

  lemma OneRecordPerPairUpdate(rs: seq<FriendRequest>, k: nat, nr: FriendRequest)
    requires k < |rs| && OneRecordPerPair(rs)
    requires nr.sender == rs[k].sender && nr.receiver == rs[k].receiver
    ensures OneRecordPerPair(rs[k := nr])
  {
    var rs' := rs[k := nr];
    forall i, j | 0 <= i < |rs'| && 0 <= j < |rs'| && i != j
      ensures !Involves(rs'[j], rs'[i].sender, rs'[i].receiver)
    {
      assert !Involves(rs[j], rs[i].sender, rs[i].receiver);
    }
  }

  lemma OneRecordPerPairAppend(rs: seq<FriendRequest>, nr: FriendRequest)
    requires OneRecordPerPair(rs)
    requires forall i :: 0 <= i < |rs| ==> !Involves(rs[i], nr.sender, nr.receiver)
    ensures OneRecordPerPair(rs + [nr])
  {
    var rs' := rs + [nr];
    forall i, j | 0 <= i < |rs'| && 0 <= j < |rs'| && i != j
      ensures !Involves(rs'[j], rs'[i].sender, rs'[i].receiver)
    {
      if i == |rs| {
        assert !Involves(rs[j], nr.sender, nr.receiver);
      } else if j == |rs| {
        assert !Involves(rs[i], nr.sender, nr.receiver);
      } else {
        assert rs'[i] == rs[i] && rs'[j] == rs[j];
      }
    }
  }

  // ---- one preservation lemma per handler ----

  /** Send keeps the store consistent: it only adds or reopens a pending record. */
  lemma SendPreservesValid(s: Store, caller: UserId, target: UserId)
    requires Valid(s)
    ensures Valid(Send(s, caller, target).store)
  {
    var r := Send(s, caller, target);
    if r.outcome == Ok {
      var rs := s.requests;
      match FindFirst(rs, Between(caller, target, AnyStatus))
      case Some(k) =>
        var nr := rs[k].(status := Pending);
        assert r.store == s.(requests := rs[k := nr]);
        OneRecordPerPairUpdate(rs, k, nr);
        forall a, b | a in s.friends && b in s.friends
          ensures b in s.friends[a] <==> Befriended(rs[k := nr], a, b)
        {
          BefriendedUpdate(rs, k, nr, a, b);
        }
      case None =>
        var nr := FriendRequest(caller, target, Pending);
        assert r.store == s.(requests := rs + [nr]);
        forall i | 0 <= i < |rs|
          ensures !Involves(rs[i], caller, target)
        {
          assert !Matches(rs[i], Between(caller, target, AnyStatus));
        }
        OneRecordPerPairAppend(rs, nr);
        forall a, b | a in s.friends && b in s.friends
          ensures b in s.friends[a] <==> Befriended(rs + [nr], a, b)
        {
          BefriendedAppend(rs, nr, a, b);
        }
    }
  }

  /** Accept keeps the store consistent: the record turns accepted as both arrays gain the other user. */
  lemma AcceptPreservesValid(s: Store, caller: UserId, target: UserId)
    requires Valid(s)
    ensures Valid(Accept(s, caller, target).store)
  {
    var r := Accept(s, caller, target);
    if r.outcome == Ok {
      var rs: seq<FriendRequest>, F: map<UserId, seq<UserId>> := s.requests, s.friends;
      var k := FindFirst(rs, Directed(target, caller, Pending)).value;
      var nr := rs[k].(status := Accepted);
      var F' := F[caller := F[caller] + [target]][target := F[target] + [caller]];
      assert r.store == Store(F', rs[k := nr]);
      assert caller != target;
      assert target !in F[caller] && caller !in F[target];
      NoDupSnoc(F[caller], target);
      NoDupSnoc(F[target], caller);
      OneRecordPerPairUpdate(rs, k, nr);
      forall a, b | a in F' && b in F'
        ensures b in F'[a] <==> Befriended(rs[k := nr], a, b)
      {
        if Involves(nr, a, b) {
          assert rs[k := nr][k] == nr;
        } else {
          BefriendedUpdate(rs, k, nr, a, b);
        }
      }
    }
  }

  /** Reject keeps the store consistent: it only turns a pending record rejected. */
  lemma RejectPreservesValid(s: Store, caller: UserId, target: UserId)
    requires Valid(s)
    ensures Valid(Reject(s, caller, target).store)
  {
    var r := Reject(s, caller, target);
    if r.outcome == Ok {
      var rs := s.requests;
      var k := FindFirst(rs, Directed(target, caller, Pending)).value;
      var nr := rs[k].(status := Rejected);
      assert r.store == s.(requests := rs[k := nr]);
      OneRecordPerPairUpdate(rs, k, nr);
      forall a, b | a in s.friends && b in s.friends
        ensures b in s.friends[a] <==> Befriended(rs[k := nr], a, b)
      {
        BefriendedUpdate(rs, k, nr, a, b);
      }
    }
  }

  /** Unfriend keeps the store consistent: the accepted record goes as both arrays lose the other user. */
  lemma UnfriendPreservesValid(s: Store, caller: UserId, target: UserId)
    requires Valid(s)
    ensures Valid(Unfriend(s, caller, target).store)
  {
    var r := Unfriend(s, caller, target);
    if r.outcome == Ok {
      var rs: seq<FriendRequest>, F: map<UserId, seq<UserId>> := s.requests, s.friends;
      var k := FindFirst(rs, Between(caller, target, {Accepted})).value;
      var rs' := RemoveAt(rs, k);
      var F' := F[caller := Pull(F[caller], target)][target := Pull(F[target], caller)];
      assert r.store == Store(F', rs');
      forall i | 0 <= i < |rs'|
        ensures rs'[i].sender in F' && rs'[i].receiver in F' && rs'[i].sender != rs'[i].receiver
      {
        if i < k {
          assert rs'[i] == rs[i];
        } else {
          assert rs'[i] == rs[i + 1];
        }
      }
      OneRecordPerPairRemove(rs, k);
      NoRecordAfterRemove(rs, k, caller, target);
      forall a, b | a in F' && b in F'
        ensures b in F'[a] <==> Befriended(rs', a, b)
      {
        if Involves(rs[k], a, b) {
          assert b !in F'[a];
        } else {
          BefriendedRemove(rs, k, a, b);
        }
      }
    }
  }
}

=== FILE: properties.dfy ===
/**
 What each friend handler does to a consistent store, stated against the
 records and arrays it reads, and the full request lifecycle.
 */
module FriendsProperties {
  import opened FriendTypes
  import opened Collection
  import opened Friends
  import opened FriendsInvariant

  /** No record of the collection links `a` and `b`, whatever its status. */
  predicate NoRecordBetween(rs: seq<FriendRequest>, a: UserId, b: UserId) {
    forall i :: 0 <= i < |rs| ==> !Involves(rs[i], a, b)
  }

  /** In a consistent store a record that is not accepted means the two users are not friends. */
  lemma NotAcceptedNotFriends(s: Store, k: nat)
    requires Valid(s) && k < |s.requests| && s.requests[k].status != Accepted
    ensures !ListedAsFriends(s, s.requests[k].sender, s.requests[k].receiver)
  {
    var a, b := s.requests[k].sender, s.requests[k].receiver;
    forall i | 0 <= i < |s.requests| && s.requests[i].status == Accepted
      ensures !Involves(s.requests[i], a, b)
    {
      assert i != k;
    }
  }

  /** The one record between two users is the one any lookup for that pair finds. */
  lemma OnlyRecordOfPair(rs: seq<FriendRequest>, k: nat, j: nat)
    requires OneRecordPerPair(rs) && k < |rs| && j < |rs|
    requires Involves(rs[j], rs[k].sender, rs[k].receiver)
    ensures j == k
  {
  }

  /**
   Sending appends exactly the record (caller, target, pending), leaving the
   friends arrays alone, precisely when both users exist, differ, are not
   friends, and no record of any status links them.
   */
  lemma SendCreatesRequestIff(s: Store, caller: UserId, target: UserId)
    ensures Send(s, caller, target) == Step(Ok, s.(requests := s.requests + [FriendRequest(caller, target, Pending)]))
        <==> (&& caller in s.friends && target in s.friends && caller != target
              && !ListedAsFriends(s, caller, target)
              && NoRecordBetween(s.requests, caller, target))
  {
    var rs := s.requests;
    var nr := FriendRequest(caller, target, Pending);
    var q := Between(caller, target, AnyStatus);
    if caller in s.friends && target in s.friends && caller != target && !ListedAsFriends(s, caller, target) {
      if NoRecordBetween(rs, caller, target) {
        assert FindFirst(rs, q).None?;
      } else {
        var j :| 0 <= j < |rs| && Involves(rs[j], caller, target);
        assert rs[j].status in AnyStatus by {
          assert rs[j].status == Pending || rs[j].status == Accepted || rs[j].status == Rejected;
        }
        assert Matches(rs[j], q);
        assert |Send(s, caller, target).store.requests| == |rs|;
        assert |rs + [nr]| == |rs| + 1;
      }
    }
  }

  /**
   Sending while a pending record links the pair, in either direction,
   fails with "already sent or accepted" and changes nothing.
   */
  lemma SendDuplicateFails(s: Store, k: nat, caller: UserId, target: UserId)
    requires Valid(s) && k < |s.requests|
    requires s.requests[k].status == Pending && Involves(s.requests[k], caller, target)
    ensures Send(s, caller, target) == Step(AlreadySentOrAccepted, s)
  {
    NotAcceptedNotFriends(s, k);
    var q := Between(caller, target, AnyStatus);
    assert Matches(s.requests[k], q);
    var j := FindFirst(s.requests, q).value;
    OnlyRecordOfPair(s.requests, k, j);
  }

  /** In a consistent store an accepted record makes a send fail with "already friends". */
  lemma SendToFriendFails(s: Store, k: nat, caller: UserId, target: UserId)
    requires Valid(s) && k < |s.requests|
    requires s.requests[k].status == Accepted && Involves(s.requests[k], caller, target)
    ensures Send(s, caller, target) == Step(AlreadyFriends, s)
  {
    assert Befriended(s.requests, caller, target);
  }

  /**
   Sending while the pair's record is rejected reopens that same record as
   pending, with sender and receiver as they were; no record is added.
   */
  lemma SendReopensRejected(s: Store, k: nat, caller: UserId, target: UserId)
    requires Valid(s) && k < |s.requests|
    requires s.requests[k].status == Rejected && Involves(s.requests[k], caller, target)
    ensures Send(s, caller, target).outcome == Ok
    ensures Send(s, caller, target).store ==
      s.(requests := s.requests[k := FriendRequest(s.requests[k].sender, s.requests[k].receiver, Pending)])
  {
    var q := Between(caller, target, AnyStatus);
    assert Matches(s.requests[k], q);
    var j := FindFirst(s.requests, q).value;
    OnlyRecordOfPair(s.requests, k, j);
    NotAcceptedNotFriends(s, k);
  }

  /**
   When either friends array names the other user, accept and reject answer
   "already friends" and change nothing, and so does send between distinct
   users (a request to oneself is refused first).
   */
  lemma AlreadyFriendsGuard(s: Store, caller: UserId, target: UserId)
    requires caller in s.friends && target in s.friends
    requires ListedAsFriends(s, caller, target)
    ensures caller != target ==> Send(s, caller, target) == Step(AlreadyFriends, s)
    ensures Accept(s, caller, target) == Step(AlreadyFriends, s)
    ensures Reject(s, caller, target) == Step(AlreadyFriends, s)
  {
  }

  /**
   In a consistent store an accept succeeds exactly when both users exist
   and a pending request runs from the target to the caller.
   */
  lemma AcceptSucceedsIff(s: Store, caller: UserId, target: UserId)
    requires Valid(s)
    ensures Accept(s, caller, target).outcome == Ok <==>
      caller in s.friends && target in s.friends && FriendRequest(target, caller, Pending) in s.requests
  {
    if caller in s.friends && target in s.friends && FriendRequest(target, caller, Pending) in s.requests {
      var k :| 0 <= k < |s.requests| && s.requests[k] == FriendRequest(target, caller, Pending);
      NotAcceptedNotFriends(s, k);
      assert Matches(s.requests[k], Directed(target, caller, Pending));
    }
  }

  /**
   In a consistent store a reject succeeds exactly when both users exist
   and a pending request runs from the target to the caller.
   */
  lemma RejectSucceedsIff(s: Store, caller: UserId, target: UserId)
    requires Valid(s)
    ensures Reject(s, caller, target).outcome == Ok <==>
      caller in s.friends && target in s.friends && FriendRequest(target, caller, Pending) in s.requests
  {
    if caller in s.friends && target in s.friends && FriendRequest(target, caller, Pending) in s.requests {
      var k :| 0 <= k < |s.requests| && s.requests[k] == FriendRequest(target, caller, Pending);
      NotAcceptedNotFriends(s, k);
      assert Matches(s.requests[k], Directed(target, caller, Pending));
    }
  }

  /**
   The sender of a pending request can neither accept nor reject it: both
   answer "request does not exist" and change nothing.
   */
  lemma SenderCannotAnswer(s: Store, k: nat)
    requires Valid(s) && k < |s.requests| && s.requests[k].status == Pending
    ensures Accept(s, s.requests[k].sender, s.requests[k].receiver) == Step(RequestNotFound, s)
    ensures Reject(s, s.requests[k].sender, s.requests[k].receiver) == Step(RequestNotFound, s)
  {
    var a, b := s.requests[k].sender, s.requests[k].receiver;
    NotAcceptedNotFriends(s, k);
    forall j | 0 <= j < |s.requests|
      ensures !Matches(s.requests[j], Directed(b, a, Pending))
    {
      if j != k {
        assert !Involves(s.requests[j], a, b);
      }
    }
  }

  /**
   A re-send keeps the stored sender and receiver. So when the receiver of
   a rejected request sends again, the reopened record still names the
   other user as its sender: the re-sender can accept it, and the user they
   are asking cannot.
   */
  lemma ResenderAcceptsOwnResend(s: Store, k: nat)
    requires Valid(s) && k < |s.requests| && s.requests[k].status == Rejected
    ensures var a, b := s.requests[k].sender, s.requests[k].receiver;
      && Send(s, b, a).outcome == Ok
      && Accept(Send(s, b, a).store, b, a).outcome == Ok
      && Accept(Send(s, b, a).store, a, b) == Step(RequestNotFound, Send(s, b, a).store)
  {
    var a, b := s.requests[k].sender, s.requests[k].receiver;
    SendReopensRejected(s, k, b, a);
    var s1 := Send(s, b, a).store;
    SendPreservesValid(s, b, a);
    assert s1.requests[k] == FriendRequest(a, b, Pending);
    SenderCannotAnswer(s1, k);
    AcceptSucceedsIff(s1, b, a);
  }

  /**
   The receiver accepting a pending request turns exactly that record
   accepted and pushes each user onto the other's friends array.
   */
  lemma AcceptEffect(s: Store, k: nat)
    requires Valid(s) && k < |s.requests| && s.requests[k].status == Pending
    ensures var a, b := s.requests[k].sender, s.requests[k].receiver;
      Accept(s, b, a) == Step(Ok, Store(
        s.friends[b := s.friends[b] + [a]][a := s.friends[a] + [b]],
        s.requests[k := FriendRequest(a, b, Accepted)]))
  {
    var a, b := s.requests[k].sender, s.requests[k].receiver;
    NotAcceptedNotFriends(s, k);
    var q := Directed(a, b, Pending);
    assert Matches(s.requests[k], q);
    var j := FindFirst(s.requests, q).value;
    OnlyRecordOfPair(s.requests, k, j);
  }

  /**
   The receiver rejecting a pending request turns exactly that record
   rejected; the friends arrays and every other record stay as they were.
   */
  lemma RejectEffect(s: Store, k: nat)
    requires Valid(s) && k < |s.requests| && s.requests[k].status == Pending
    ensures var a, b := s.requests[k].sender, s.requests[k].receiver;
      Reject(s, b, a) == Step(Ok, s.(requests := s.requests[k := FriendRequest(a, b, Rejected)]))
  {
    var a, b := s.requests[k].sender, s.requests[k].receiver;
    NotAcceptedNotFriends(s, k);
    var q := Directed(a, b, Pending);
    assert Matches(s.requests[k], q);
    var j := FindFirst(s.requests, q).value;
    OnlyRecordOfPair(s.requests, k, j);
  }

  /**
   Between two existing users of a consistent store, unfriending succeeds
   exactly when they are friends; it then leaves no record between them and
   neither array names the other, and otherwise it answers "not friends"
   and changes nothing.
   */
  lemma UnfriendIff(s: Store, caller: UserId, target: UserId)
    requires Valid(s) && caller in s.friends && target in s.friends
    ensures Unfriend(s, caller, target).outcome == Ok <==> target in s.friends[caller]
    ensures Unfriend(s, caller, target).outcome == Ok ==>
      NoRecordBetween(Unfriend(s, caller, target).store.requests, caller, target)
    ensures Unfriend(s, caller, target).outcome != Ok ==>
      Unfriend(s, caller, target) == Step(NotFriends, s)
  {
    var q := Between(caller, target, {Accepted});
    if target in s.friends[caller] {
      var i :| 0 <= i < |s.requests| && s.requests[i].status == Accepted && Involves(s.requests[i], caller, target);
      assert Matches(s.requests[i], q);
      var k := FindFirst(s.requests, q).value;
      NoRecordAfterRemove(s.requests, k, caller, target);
    } else {
      assert !Befriended(s.requests, caller, target);
      assert forall j :: 0 <= j < |s.requests| ==> !Matches(s.requests[j], q);
    }
  }

  /**
   In a consistent store the friends-list handler returns exactly the users
   linked to the caller by an accepted record.
   */
  lemma FriendsListMatchesAccepted(s: Store, u: UserId, v: UserId)
    requires Valid(s) && u in s.friends
    ensures FriendsList(s, u).Some?
    ensures v in FriendsList(s, u).value <==> v in s.friends && Befriended(s.requests, u, v)
  {
  }

  /**
   Unfriending a user linked by an accepted record deletes exactly that
   record and pulls each user from the other's friends array.
   */
  lemma UnfriendEffect(s: Store, k: nat, caller: UserId, target: UserId)
    requires Valid(s) && k < |s.requests|
    requires s.requests[k].status == Accepted && Involves(s.requests[k], caller, target)
    ensures Unfriend(s, caller, target) == Step(Ok, Store(
      s.friends[caller := Pull(s.friends[caller], target)][target := Pull(s.friends[target], caller)],
      RemoveAt(s.requests, k)))
  {
    var q := Between(caller, target, {Accepted});
    assert Matches(s.requests[k], q);
    var j := FindFirst(s.requests, q).value;
    OnlyRecordOfPair(s.requests, k, j);
  }

  /**
   The first half of the lifecycle between two strangers: the send
   succeeds, adds exactly one entry, the new request, at the end of both
   users' pending lists, and a second send from either side fails.
   */
  lemma LifecycleSend(s: Store, a: UserId, b: UserId)
    requires Valid(s) && a in s.friends && b in s.friends && a != b
    requires !ListedAsFriends(s, a, b) && NoRecordBetween(s.requests, a, b)
    ensures Send(s, a, b).outcome == Ok
    ensures PendingList(Send(s, a, b).store, a).value == PendingList(s, a).value + [FriendRequest(a, b, Pending)]
    ensures PendingList(Send(s, a, b).store, b).value == PendingList(s, b).value + [FriendRequest(a, b, Pending)]
    ensures Send(Send(s, a, b).store, a, b) == Step(AlreadySentOrAccepted, Send(s, a, b).store)
    ensures Send(Send(s, a, b).store, b, a) == Step(AlreadySentOrAccepted, Send(s, a, b).store)
  {
    var nr := FriendRequest(a, b, Pending);
    SendCreatesRequestIff(s, a, b);
    var s1 := Send(s, a, b).store;
    assert s1.requests == s.requests + [nr];
    SendPreservesValid(s, a, b);
    var k := |s.requests|;
    assert s1.requests[k] == nr;
    SendDuplicateFails(s1, k, a, b);
    SendDuplicateFails(s1, k, b, a);
    FindAllAppend(s.requests, nr, Party(a, Pending));
    FindAllAppend(s.requests, nr, Party(b, Pending));
  }

  /**
   The whole lifecycle between two strangers: after the send, the
   receiver's accept makes them friends, and the receiver's unfriend then
   returns the store exactly to where it started.
   */
  lemma LifecycleRoundTrip(s: Store, a: UserId, b: UserId)
    requires Valid(s) && a in s.friends && b in s.friends && a != b
    requires !ListedAsFriends(s, a, b) && NoRecordBetween(s.requests, a, b)
    ensures Accept(Send(s, a, b).store, b, a).outcome == Ok
    ensures a in Accept(Send(s, a, b).store, b, a).store.friends[b]
    ensures b in Accept(Send(s, a, b).store, b, a).store.friends[a]
    ensures Unfriend(Accept(Send(s, a, b).store, b, a).store, b, a) == Step(Ok, s)
  {
    var rs: seq<FriendRequest>, F: map<UserId, seq<UserId>> := s.requests, s.friends;
    var s1 := Store(F, rs + [FriendRequest(a, b, Pending)]);
    var F2: map<UserId, seq<UserId>> := F[b := F[b] + [a]][a := F[a] + [b]];
    var s2 := Store(F2, rs + [FriendRequest(a, b, Accepted)]);
    var k := |rs|;
    assert Send(s, a, b).store == s1 by {
      SendCreatesRequestIff(s, a, b);
    }
    assert Valid(s1) by {
      SendPreservesValid(s, a, b);
    }
    assert Accept(s1, b, a) == Step(Ok, s2) by {
      AcceptEffect(s1, k);
    }
    assert Valid(s2) by {
      AcceptPreservesValid(s1, b, a);
    }
    assert Unfriend(s2, b, a) == Step(Ok, s) by {
      UnfriendEffect(s2, k, b, a);
      assert RemoveAt(s2.requests, k) == rs;
      UndoPushes(F, a, b);
    }
  }

  /** Pulling each user from the other's array undoes pushing them there. */
  lemma UndoPushes(F: map<UserId, seq<UserId>>, a: UserId, b: UserId)
    requires a in F && b in F && a != b && a !in F[b] && b !in F[a]
    ensures var F2 := F[b := F[b] + [a]][a := F[a] + [b]];
      F2[b := Pull(F2[b], a)][a := Pull(F2[a], b)] == F
  {
    PullAppended(F[b], a);
    PullAppended(F[a], b);
  }

  // ---- the self-request guard ----

  /** Apart from a request to oneself, the corrected send is the send as written. */
  lemma SendAgreesWithCode(s: Store, caller: UserId, target: UserId)
    requires caller != target || caller !in s.friends
    ensures Send(s, caller, target) == SendAsWritten(s, caller, target)
  {
  }

  /**
   As written, a user of a consistent store who sends a request to themself
   gets a success and a pending record from themself to themself, which
   breaks the consistency of the store.
   */
  lemma SelfRequestSlipsThrough(s: Store, u: UserId)
    requires Valid(s) && u in s.friends
    ensures SendAsWritten(s, u, u).outcome == Ok
    ensures FriendRequest(u, u, Pending) in SendAsWritten(s, u, u).store.requests
    ensures !Valid(SendAsWritten(s, u, u).store)
  {
    var rs := s.requests;
    if ListedAsFriends(s, u, u) {
      FriendshipSymmetric(s, u, u);
    }
    var q := Between(u, u, AnyStatus);
    forall j | 0 <= j < |rs|
      ensures !Matches(rs[j], q)
    {
    }
    var rs' := SendAsWritten(s, u, u).store.requests;
    assert rs' == rs + [FriendRequest(u, u, Pending)];
    assert rs'[|rs|].sender == rs'[|rs|].receiver;
  }

  /**
   As written, the self-request record can then be accepted by its own
   user. The two pushes of the accept each land, so the user's friends
   array gains their own id twice.
   */
  lemma SelfAcceptPushesTwice(s: Store, u: UserId)
    requires Valid(s) && u in s.friends
    ensures var s1 := SendAsWritten(s, u, u).store;
      && Accept(s1, u, u).outcome == Ok
      && Accept(s1, u, u).store.friends[u] == s.friends[u] + [u, u]
  {
    SelfRequestSlipsThrough(s, u);
    var s1 := SendAsWritten(s, u, u).store;
    assert s1 == s.(requests := s.requests + [FriendRequest(u, u, Pending)]);
    assert u !in s.friends[u] by {
      if u in s.friends[u] {
        FriendshipSymmetric(s, u, u);
      }
    }
    assert Matches(s1.requests[|s.requests|], Directed(u, u, Pending));
  }
}

=== FILE: types.dfy ===
/**
 The data model of the friend-request lifecycle: users with their friends
 arrays, friend-request records, and the outcome each handler reports.
 */
module FriendTypes {

  /** A user's document identifier. */
  type UserId = nat

  datatype Option<T> = None | Some(value: T)

  /** The three values the `status` field of a friend request can take. */
  datatype Status = Pending | Accepted | Rejected

  /** One document of the friend-request collection. A new record is pending. */
  datatype FriendRequest = FriendRequest(sender: UserId, receiver: UserId, status: Status)

  /**
   The persistent store: the key set of `friends` is the set of existing
   users and maps each to its `friends` array; `requests` is the
   friend-request collection, in insertion order (the order the model
   gives the collection's lookups).
   */
  datatype Store = Store(friends: map<UserId, seq<UserId>>, requests: seq<FriendRequest>)

  /**
   What a handler reports. Each value stands for one response of the
   controller:
   - Ok: 200, success
   - UserNotFound: 404 "User not found"
   - SelfRequest: 400 "You cannot send a friend request to yourself"
   - AlreadyFriends: 400 "Already friends"
   - AlreadySentOrAccepted: 400 "Friend request already sent or accepted"
   - RequestNotFound: 404 "The friend request does not exist"
   - NotFriends: 404 "You are not friends with that user"
   */
  datatype Outcome =
    | Ok
    | UserNotFound
    | SelfRequest
    | AlreadyFriends
    | AlreadySentOrAccepted
    | RequestNotFound
    | NotFriends

  /** The result of one handler: its outcome and the store afterwards. */
  datatype Step = Step(outcome: Outcome, store: Store)

  /** The record links `a` and `b`, in either direction. */
  predicate Involves(r: FriendRequest, a: UserId, b: UserId) {
    (r.sender == a && r.receiver == b) || (r.sender == b && r.receiver == a)
  }
}
